=== FILE: README.md ===
# Oj large-string workaround, modelled in Dafny

This project models the size check that sits in front of Oj's JSON encoder,
and the integer arithmetic behind the crash that check works around.

- `SafeJsonSerializer` (workaround.rb) estimates how many bytes a Ruby value
  holds. It walks Strings, Arrays and Hashes, counts every distinct
  `object_id` once and gives a fixed 8 to numbers, `true`, `false` and
  `nil`. If the estimate is above `SIZE_THRESHOLD` (INT_MAX), it hands the
  data to `JSON.generate`; otherwise it hands it to `Oj.dump`.
- test_negative_int_cast.rb simulates the C pattern
  `size_t len = (int)RSTRING_LEN(str)` with `pack('l')`/`unpack('l')`. It then
  re-widens the negative int with `pack('q')`/`unpack('Q')`.
- test_int_overflow.rb works out the same arithmetic with a
  `& 0xFFFFFFFF` mask. It decides when an Oj failure "confirms the INT_MAX
  truncation issue", and sweeps six sizes around INT_MAX.

Modules, one concept each:

- `Common`: bytes, `Option`, powers of two and division facts.
- `ValueGraph`: the Ruby object graph as a heap from `object_id` to object.
  A container holds the identities of its children. Shared and cyclic
  structure is therefore explicit.
- `DataSize`: `calculate_data_size` as a function of the heap, the object
  and the visited set. The visited set is returned as well as taken, because
  the source shares one mutable `Set` across all nested calls. This module
  also holds the proofs that every object is counted exactly once and that
  the estimate grows exactly with a String's length.
- `NegativeIntCast`: `Array#pack` / `String#unpack` as byte encoders, the
  `(int)` cast, the `size_t` re-widening and `show_boundary_behavior`.
- `IntOverflow`: Ruby's `Integer#&`, the 32-bit mask, the overflow amount,
  the `test_string_size` diagnosis and the `test_sizes` sweep.
- `SafeJsonSerializer`:
  - `calculate_data_size` as an imperative method with the loops the
    source has, proved against `DataSize.Walk`;
  - `dump` as a method over a `Backends` object, which holds the two
    encoders and a log of every call made to them;
  - the data of `test_safe_serializer`, with its exact estimate.

Where the code and its own prose disagree, the model follows the code.
workaround.rb:92 says Oj is used "under 3GB", but the threshold at
workaround.rb:14 is INT_MAX, 2147483647 bytes, just under 2 GiB. The model
uses INT_MAX, and the threshold is inclusive: exactly INT_MAX still goes to
Oj.

## Model

| member | source | states |
|---|---|---|
| DataSize.Walk | workaround.rb:32-50 | The estimate of one object. An already-visited identity adds 0. Otherwise the identity is recorded before its children, so the visited set after the call holds the old set plus this identity. |
| DataSize.WalkItems | workaround.rb:39-40 | The Array sum visits elements in order, each seeing the identities its earlier siblings recorded; the visited set only grows. |
| DataSize.WalkEntries | workaround.rb:41-44 | The Hash sum visits entries in insertion order, threading the visited set; it only grows. |
| DataSize.WalkEntry | workaround.rb:42-44 | An entry adds its key's estimate, then its value's, with the value seeing what the key recorded. |
| DataSize.WalkEntriesConcat | workaround.rb:41-44 | Summing the entries of `a + b` is summing `a` and then `b` from where `a` left the visited set. |
| DataSize.Estimate | workaround.rb:17 | `calculate_data_size(data)` with its default fresh `Set.new` (workaround.rb:32). It is the sum of the own sizes of the objects the walk meets, and no object is met twice. |
| DataSize.UnvisitedShrinks | workaround.rb:33-34 | Recording a heap identity not seen before strictly shrinks the set of unvisited objects, which is why the recursion ends even on cyclic data. |
| DataSize.WalkCountsEachObjectOnce | workaround.rb:32-34 | The estimate is the sum of the own sizes of the objects met for the first time. Each is met exactly once, none was visited before, and the new visited set is exactly the old one plus those objects. |
| DataSize.WalkItemsCountsEachObjectOnce | workaround.rb:39-40 | The same accounting for an Array's elements, with shared elements counted once. |
| DataSize.WalkEntriesCountsEachObjectOnce | workaround.rb:41-44 | The same accounting for a Hash's entries. |
| DataSize.WalkEntryCountsEachObjectOnce | workaround.rb:43 | The same accounting for one key/value pair; a value equal to its key adds nothing. |
| DataSize.FreshIsDistinct | workaround.rb:33-34 | The objects a walk accounts for are pairwise distinct and none was in the visited set it started from. |
| DataSize.OwnSizeWithinTotal | workaround.rb:45-48 | Each object met contributes its own size, no more than the total. |
| DataSize.StringWithinEstimate | workaround.rb:37-38 | Every String in the walk's visited set has a `bytesize` no larger than the whole estimate. |
| DataSize.WalkClosed | workaround.rb:32-50 | Every object a walk records for the first time has all its children, Array elements and Hash keys and values, in the visited set the walk leaves. |
| DataSize.WalkItemsClosed | workaround.rb:39-40 | The same closure for an Array's elements; every element ends up visited. |
| DataSize.WalkEntriesClosed | workaround.rb:41-44 | The same closure for a Hash's entries; every key and value ends up visited. |
| DataSize.WalkEntryClosed | workaround.rb:43 | The same closure for one pair; both the key and the value end up visited. |
| DataSize.PathStaysInside | workaround.rb:36-44 | A visited set closed under children that holds the start of a path also holds its end. |
| DataSize.ReachableIsVisited | workaround.rb:32-50 | Nothing reachable is skipped: every object reachable from the root, through Array elements and Hash keys and values, is in the root walk's visited set. |
| DataSize.ExtendPath | workaround.rb:39-44 | A container reaches whatever any of its elements, keys or values reaches. |
| DataSize.WalkReaches | workaround.rb:32-50 | Every object a walk records for the first time is reachable from the object walked. |
| DataSize.WalkItemsReach | workaround.rb:39-40 | Every object an Array sum records is reachable from one of the elements. |
| DataSize.WalkEntriesReach | workaround.rb:41-44 | Every object a Hash sum records is reachable from one of the keys or values. |
| DataSize.WalkEntryReaches | workaround.rb:43 | Every object one entry records is reachable from its key or its value. |
| DataSize.VisitedIsReachable | workaround.rb:32-50 | Nothing outside the data is counted: every object in the root walk's visited set is reachable from the root. |
| DataSize.EstimateIsOfReachableObjects | workaround.rb:17 | The estimate is the sum of the own sizes of exactly the objects reachable from the data, each counted once. |
| DataSize.ReachableStringWithinEstimate | workaround.rb:37-38 | Every String reachable from the root has a `bytesize` no larger than the estimate. |
| DataSize.AppendBytes | workaround.rb:37-38 | Growing one String leaves every identity in place: that String's bytes gain `extra` at the end and every other object is unchanged. |
| DataSize.WalkGrowsWithString | workaround.rb:37-38 | Growing a String by n bytes leaves the visited set unchanged. It raises a walk's estimate by exactly n if the walk reaches that String, and by 0 otherwise. |
| DataSize.ItemsGrowWithString | workaround.rb:39-40 | The same for an Array's elements. |
| DataSize.EntriesGrowWithString | workaround.rb:41-44 | The same for a Hash's entries. |
| DataSize.EntryGrowsWithString | workaround.rb:43 | The same for one entry. |
| DataSize.EstimateNeverShrinks | workaround.rb:32-50 | Growing any String never lowers the estimate. The estimate rises by exactly the added length if the String is in the root walk's visited set, and stays the same otherwise. |
| DataSize.ReachableStringGrowsEstimate | workaround.rb:37-38 | Appending bytes to a String reachable from the root raises the estimate by exactly their number. |
| SafeJsonSerializer.CalculateDataSize | workaround.rb:32-50 | The loop-based method returns the size and final visited set of `DataSize.Walk`, including the shared visited set between siblings. |
| SafeJsonSerializer.DumpCall | workaround.rb:21-27 | `JSON.generate(data)` exactly when the estimate exceeds the threshold. Otherwise it is `Oj.dump(data, options)`, with the options passed through. Either call is on the data as given. |
| SafeJsonSerializer.Dump | workaround.rb:16-28 | Exactly one encoder call is made and logged, the one `DumpCall` names, and its outcome, a value or an exception, is returned unchanged. If Oj was only ever handed data whose estimate, taken at the time of each call, was within the threshold, that still holds afterwards, even when the data changed between calls. |
| SafeJsonSerializer.Backends.Oj | workaround.rb:26 | Logs the `Oj.dump` call with the data as it is at that moment, and returns what the encoder produces. |
| SafeJsonSerializer.Backends.Json | workaround.rb:23 | Logs the `JSON.generate` call with the data as it is at that moment, and returns what the encoder produces. |
| IntOverflow.INT_MAX | test_int_overflow.rb:8 | INT_MAX is 2147483647. |
| IntOverflow.TEST_SIZES | test_int_overflow.rb:15-22 | The sizes tried are INT_MAX - 1000, INT_MAX - 1, INT_MAX, INT_MAX + 1, INT_MAX + 1000 and INT_MAX * 2, in that order. |
| NegativeIntCast.BOUNDARY_TEST_VALUES | test_negative_int_cast.rb:47-52 | The values tried are 2147483646, 2147483647, 2147483648 and 2147483649, in that order. |
| NegativeIntCast.PRINTED_RATIO | test_negative_int_cast.rb:94 | The ratio printed as the C program's expected output is 8589934592. |
| SafeJsonSerializer.SIZE_THRESHOLD | workaround.rb:14 | The threshold is INT_MAX, 2147483647. |
| SafeJsonSerializer.OjNeverSeesTruncatedLength | workaround.rb:13-14 | When `dump` picks Oj, every String in the walk's visited set, and so by `DataSize.ReachableIsVisited` every String reachable from the data, has a length that Oj's `(int)` cast leaves unchanged. |
| SafeJsonSerializer.SingleStringThreshold | workaround.rb:14 | A lone String of INT_MAX bytes goes to Oj; one of INT_MAX + 1 bytes goes to `JSON.generate`. |
| SafeJsonSerializer.SerializerTestData | workaround.rb:59-69 | The test data: the top-level hash has the `html:` and `json:` entries, and the html content is the String at identity 2. |
| SafeJsonSerializer.SerializerTestDataShape | workaround.rb:59-69 | The heap built for the test data has the two hashes, the two arrays and the leaf sizes the walk relies on. |
| SafeJsonSerializer.LeafStep | workaround.rb:36-48 | A first visit to a childless object adds its own size and records exactly that identity. |
| SafeJsonSerializer.LeafEntry | workaround.rb:42-44 | An entry whose key and value are both new leaves adds both sizes. |
| SafeJsonSerializer.LeafKeySeenValue | workaround.rb:33 | An entry whose value was met earlier adds only its key. |
| SafeJsonSerializer.EntriesCons | workaround.rb:42-44 | Entries are summed front to back. |
| SafeJsonSerializer.InnerHashHead | workaround.rb:62-64 | `id:`, `type:` and `disabled: false` add 9 + 13 + 16 = 38. |
| SafeJsonSerializer.BlocksEntry | workaround.rb:65 | `blocks: []` adds 6 (the key; the empty Array adds 0). |
| SafeJsonSerializer.ThemeSettingsEntry | workaround.rb:67 | `accessedThemeSettings: [...]` adds 21 + 9 + 11 = 41. |
| SafeJsonSerializer.InnerHashTail | workaround.rb:65-67 | The last three entries add 69. The second `false` is the object already met, so only its key counts. |
| SafeJsonSerializer.InnerHashEstimate | workaround.rb:61-68 | The inner `json:` hash adds 107 and visits all 14 of its objects. |
| SafeJsonSerializer.TestDataEstimate | workaround.rb:59-69 | Any heap of that shape has estimate html length + 115 and visits all 18 objects. |
| SafeJsonSerializer.SerializerTestDataEstimate | workaround.rb:57-69 | The test data's estimate is exactly the html length plus 115. |
| SafeJsonSerializer.SerializerTestDispatch | workaround.rb:86-87 | With 2000 MB of html, `dump` uses Oj; with 4000 MB, it uses `JSON.generate`. |
| NegativeIntCast.EncodeLE | test_negative_int_cast.rb:21 | Packing into n bytes gives exactly n bytes. |
| NegativeIntCast.DecodeLE | test_negative_int_cast.rb:22 | Unpacking n bytes gives a value below 256^n. |
| NegativeIntCast.DecodeEncode | test_negative_int_cast.rb:21-22 | Unpacking the bytes of v gives back v modulo 256^n. |
| NegativeIntCast.Pack | test_negative_int_cast.rb:30 | `pack` of an Integer into a `width`-byte field always yields `width` bytes. What those bytes hold, v modulo 256^width, is stated by `NegativeIntCast.PackUnpackUnsigned`. |
| NegativeIntCast.UnpackUnsigned | test_negative_int_cast.rb:31 | `unpack('Q')` yields a value exactly when enough bytes are present, and that value lies in the unsigned range. |
| NegativeIntCast.UnpackSigned | test_negative_int_cast.rb:22 | `unpack('l')` yields a value exactly when enough bytes are present, and that value lies in the signed range. |
| NegativeIntCast.PackUnpackUnsigned | test_negative_int_cast.rb:30-31 | Packing and then unpacking unsigned gives v modulo 256^width. |
| NegativeIntCast.TwosComplementCongruent | test_negative_int_cast.rb:21-22 | The signed reading of v's low bits differs from v by a multiple of the field's range. |
| NegativeIntCast.CastToInt | test_negative_int_cast.rb:21-22 | The `(int)` cast gives the one value in [-2^31, 2^31) congruent to v modulo 2^32. |
| NegativeIntCast.ToSizeT | test_negative_int_cast.rb:30-31 | The `size_t` re-widening gives the one value in [0, 2^64) congruent to n modulo 2^64. |
| NegativeIntCast.ShowBoundary | test_negative_int_cast.rb:56-64 | The report carries the cast result and is `Safe` exactly when that result is non-negative. A negative result also carries its re-widened `size_t`. |
| NegativeIntCast.CastKeepsSmallSizes | test_negative_int_cast.rb:59-60 | Every size up to INT_MAX casts to itself and is reported safe. |
| NegativeIntCast.CastWrapsLargeSizes | test_negative_int_cast.rb:61-64 | Every size in (INT_MAX, 2^32) casts to size - 2^32, which is negative, and is reported huge. |
| NegativeIntCast.UnsafeReport | test_negative_int_cast.rb:63-64 | For such a size the report is cast = size - 2^32 and `size_t` = 2^64 + size - 2^32. |
| NegativeIntCast.WidenNegative | test_negative_int_cast.rb:28-31 | A negative 64-bit value read as `size_t` is 2^64 plus that value. |
| NegativeIntCast.UnsafeSizeGrows | test_negative_int_cast.rb:37-39 | For every String size below 2^63 that the cast turns negative, the length C reads is larger than the real length. |
| NegativeIntCast.DemonstratedConversion | test_negative_int_cast.rb:10-33 | 2^31 casts to -2147483648 and re-widens to 18446744071562067968. |
| NegativeIntCast.PrintedRatioIsOffByOne | test_negative_int_cast.rb:91-94 | The printed ratio, 8589934592, is not the ratio of the two printed sizes; 8589934591 is. |
| NegativeIntCast.WidenedRatio | test_negative_int_cast.rb:80-85 | The re-widened size is the size plus 2^64 - 2^32. At 2^31 that is exactly 8589934591 times the size. |
| NegativeIntCast.BoundaryTestValuesReport | test_negative_int_cast.rb:47-66 | The four boundary values are reported: safe, safe, huge at 18446744071562067968, huge at 18446744071562067969. |
| IntOverflow.BitAnd | test_int_overflow.rb:73 | `a & b` of non-negative Integers is no larger than either operand. |
| IntOverflow.LowBitsMask | test_int_overflow.rb:73 | Masking with k one bits keeps a modulo 2^k. |
| IntOverflow.Mask32 | test_int_overflow.rb:73 | `size & 0xFFFFFFFF` is size modulo 2^32. |
| IntOverflow.Truncate32 | test_int_overflow.rb:72-73 | The mask gives a value below 2^32 that is congruent to the size, and leaves sizes below 2^32 unchanged. |
| IntOverflow.MaskMatchesPackCast | test_int_overflow.rb:72-73 | Reading the masked bits as signed is exactly the `pack('l')` cast of test_negative_int_cast.rb. |
| IntOverflow.DemonstratedTruncation | test_int_overflow.rb:65-77 | For 3737406350, the mask returns the size itself. The printed difference is 0 and the overflow amount is 1589922703. |
| IntOverflow.DemonstratedSignedTruncation | test_int_overflow.rb:72-77 | The `(int)` cast of 3737406350 is -557560946. |
| IntOverflow.OverflowAmount | test_int_overflow.rb:70 | `large_size - INT_MAX` is positive exactly when the size is past INT_MAX, and adds back to the size. |
| IntOverflow.TestStringSize | test_int_overflow.rb:29-58 | The size test fails exactly when an Oj call raised a `StandardError`, the class `rescue => e` catches. On failure, the truncation diagnosis is printed exactly when the size exceeds INT_MAX. |
| IntOverflow.DiagnosisMatchesNegativeCast | test_int_overflow.rb:57 | For sizes below 2^32, the diagnosis is printed exactly when the `(int)` cast of the size is negative. |
| IntOverflow.TestSizesStraddleIntMax | test_int_overflow.rb:15-22 | The six test sizes rise strictly. The first three are at or below INT_MAX and the last three above. |

## Left out

- The encoders' output. `Oj.dump` and `JSON.generate` are foreign code, so `Backends` takes them as two functions. The model states which one runs and that its result is passed through, not what JSON they write.
- Console output: every `puts`, the GB/MB/exabyte figures (floating point), `Time.now` timings, and the binary dump at test_int_overflow.rb:80-82. None of them affects which encoder runs or any size.
- Allocation. The multi-gigabyte `"x" * size` strings are lengths in the model, not buffers. Allocation failures such as `NoMemoryError` are not modelled.
- Stack depth. `calculate_data_size` recurses once per nesting level (workaround.rb:40, 43), so very deeply nested data makes `dump` raise `SystemStackError` before any encoder is called. The model has no stack limit, and `SafeJsonSerializer.Dump` always makes its one encoder call.
- `test_string_size` makes two `Oj.dump` calls, on the String and on a one-entry Hash. Whether either raises is up to the encoder, so the model takes one flag meaning "an Oj call raised a `StandardError`". Errors `rescue => e` does not catch, such as `NoMemoryError`, and a segfault end the script without a report; they are not modelled.
- `create_c_reproduction`'s heredoc is C text that is printed, not run. Only its printed "expected output" lines are checked, by `NegativeIntCast.PrintedRatioIsOffByOne` and `NegativeIntCast.WidenedRatio`.
- Byte order. `pack('l')`/`pack('q')` use native order; the model fixes little-endian. The round trips proved do not depend on the order.
- `Other` objects (symbols and anything else) carry the bytes of their `to_s`. How Ruby builds that text is not modelled.
- An `object_id` missing from the heap is recorded as visited and adds 0. A Ruby object always exists, so this case does not arise in the source.
- Options is the caller's options hash, kept as a string map because it is only passed through.
- system_info.rb, test.rb, test_small.rb, test_targeted.rb, minimal_repro.rb, one_liner_test.rb and comparison.rb are not part of this model. They print system information (system_info.rb also runs `vm_stat` / `free -h`), build test data and call Oj or `JSON.generate`; none of them is part of the size check.

## Findings

| source | as written | input that shows it | evidently intended | confidence | as-written member | corrected member |
|---|---|---|---|---|---|---|
| test_negative_int_cast.rb:94 | the expected C output gives the ratio as `8589934592.0x` | original size 2^31: the cast size is 18446744071562067968 = (2^33 - 1) * 2^31, and both operands and the quotient are exact as doubles | `8589934591.0x` | not executed | NegativeIntCast.PrintedRatioIsOffByOne | NegativeIntCast.WidenedRatio |
| test_int_overflow.rb:73 | `large_size & 0xFFFFFFFF` is printed as the "32-bit truncation" of the size | 3737406350 is below 2^32, so the mask returns it unchanged and the printed difference is 0 | the C `(int)` cast that the script describes: 3737406350 becomes -557560946 | not executed | IntOverflow.DemonstratedTruncation | IntOverflow.DemonstratedSignedTruncation |

=== FILE: common.dfy ===
/** Small definitions shared by the models of the three source files. */
module Common {

  /** One byte of a Ruby binary string. */
  newtype byte = x: int | 0 <= x < 256

  /** A value that may be absent (Ruby's `nil` result of a short unpack). */
  datatype Option<T> = None | Some(value: T)

  /** Two to the power `k`. */
  function Pow2(k: nat): (p: nat)
    ensures p >= 1
  {
    if k == 0 then 1 else 2 * Pow2(k - 1)
  }

  /** Multiplying by a positive factor keeps the order of its operands. */
  lemma MulMonotone(m: int, a: int, b: int)
    requires m > 0 && a <= b
    ensures m * a <= m * b
  {
    var d := b - a;
    assert m * b == m * a + m * d;
    assert m * d >= 0;
  }

  /** Euclidean division has only one answer. */
  lemma DivModUnique(v: int, m: int, q: int, t: int)
    requires m > 0 && v == m * q + t && 0 <= t < m
    ensures v / m == q && v % m == t
  {
    var q0, t0 := v / m, v % m;
    assert v == m * q0 + t0;
    if q > q0 {
      MulMonotone(m, q0 + 1, q);
      assert false;
    } else if q < q0 {
      MulMonotone(m, q + 1, q0);
      assert false;
    }
  }

  /**
   * Taking a remainder modulo a product in two stages: the low digit
   * modulo `a`, then the next digit modulo `b`.
   */
  lemma ModSplit(v: nat, a: nat, b: nat)
    requires a > 0 && b > 0
    ensures v % (a * b) == v % a + a * ((v / a) % b)
  {
    var q, r := v / a, v % a;
    var q2, r2 := q / b, q % b;
    assert v == a * q + r;
    assert q == b * q2 + r2;
    assert v == (a * b) * q2 + (a * r2 + r) by {
      assert a * q == a * (b * q2) + a * r2;
    }
    MulMonotone(a, r2, b - 1);
    assert a * (b - 1) == a * b - a;
    DivModUnique(v, a * b, q2, a * r2 + r);
  }

  /** Two values that agree modulo `m` and lie in one window of width `m` are equal. */
  lemma CongruentInWindow(x: int, y: int, lo: int, m: int)
    requires m > 0 && lo <= x < lo + m && lo <= y < lo + m
    requires (x - y) % m == 0
    ensures x == y
  {
    if x > y {
      DivModUnique(x - y, m, 0, x - y);
    } else if x < y {
      DivModUnique(x - y, m, -1, x - y + m);
    }
  }

  /** Agreeing modulo `m` is transitive. */
  lemma CongruentTrans(a: int, b: int, c: int, m: int)
    requires m > 0 && (a - b) % m == 0 && (b - c) % m == 0
    ensures (a - c) % m == 0
  {
    var q1, q2 := (a - b) / m, (b - c) / m;
    DivModUnique(a - c, m, q1 + q2, 0);
  }
}

=== FILE: data_size.dfy ===
/**
 * The size estimate of `SafeJsonSerializer.calculate_data_size`, as a
 * function of the heap, the object to size and the identities already
 * visited. The function returns the estimate together with the visited set
 * as the walk leaves it, since the source mutates one `Set` in place and
 * every later sibling sees what earlier siblings added.
 */
module DataSize {
  import opened Common
  import opened ValueGraph

  /** The estimate and the visited set after one call. */
  datatype Walked = Walked(size: nat, visited: set<ObjId>)

  /** Heap objects not yet visited: the walk's termination measure. */
  function Unvisited(heap: Heap, visited: set<ObjId>): nat
  {
    |heap.Keys - visited|
  }

  lemma UnvisitedShrinks(heap: Heap, visited: set<ObjId>, more: set<ObjId>, id: ObjId)
    requires visited <= more
    ensures Unvisited(heap, more) <= Unvisited(heap, visited)
    ensures id in heap && id !in visited && id in more ==> Unvisited(heap, more) < Unvisited(heap, visited)
  {
    var a, b := heap.Keys - more, heap.Keys - visited;
    assert b == a + (b - a);
    if id in heap && id !in visited && id in more {
      assert id in b - a;
    }
  }

  /**
   * The estimate of one object. An identity already visited contributes 0;
   * otherwise it is recorded first and then sized by its kind.
   */
  function Walk(heap: Heap, id: ObjId, visited: set<ObjId>): (w: Walked)
    ensures visited + {id} <= w.visited
    decreases Unvisited(heap, visited), 0, 0
  {
    if id in visited then Walked(0, visited)
    else
      var seen := visited + {id};
      if id !in heap then Walked(0, seen)
      else
        UnvisitedShrinks(heap, visited, seen, id);
        match heap[id]
        case Str(bytes) => Walked(|bytes|, seen)
        case Arr(items) => WalkItems(heap, items, seen)
        case Hsh(entries) => WalkEntries(heap, entries, seen)
        case Other(text) => Walked(|text|, seen)
        case _ => Walked(8, seen)
  }

  /** The sum over Array elements, in order, threading the visited set. */
  function WalkItems(heap: Heap, items: seq<ObjId>, visited: set<ObjId>): (w: Walked)
    ensures visited <= w.visited
    decreases Unvisited(heap, visited), 1, |items|
  {
    if items == [] then Walked(0, visited)
    else
      var first := Walk(heap, items[0], visited);
      UnvisitedShrinks(heap, visited, first.visited, items[0]);
      var rest := WalkItems(heap, items[1..], first.visited);
      Walked(first.size + rest.size, rest.visited)
  }

  /** The sum over Hash entries, in order, of each entry's contribution. */
  function WalkEntries(heap: Heap, entries: seq<Entry>, visited: set<ObjId>): (w: Walked)
    ensures visited <= w.visited
    decreases Unvisited(heap, visited), 2, |entries|
  {
    if entries == [] then Walked(0, visited)
    else
      var first := WalkEntry(heap, entries[0], visited);
      UnvisitedShrinks(heap, visited, first.visited, entries[0].key);
      var rest := WalkEntries(heap, entries[1..], first.visited);
      Walked(first.size + rest.size, rest.visited)
  }

  /** One Hash entry: its key's contribution plus its value's. */
  function WalkEntry(heap: Heap, entry: Entry, visited: set<ObjId>): (w: Walked)
    ensures visited <= w.visited
    decreases Unvisited(heap, visited), 1, 0
  {
    var key := Walk(heap, entry.key, visited);
    UnvisitedShrinks(heap, visited, key.visited, entry.key);
    var value := Walk(heap, entry.value, key.visited);
    Walked(key.size + value.size, value.visited)
  }

  /**
   * Hash entries are summed left to right: walking `a + b` walks `a`, then
   * walks `b` from the visited set `a` left behind, and adds the two.
   */
  lemma {:induction false} WalkEntriesConcat(heap: Heap, a: seq<Entry>, b: seq<Entry>, visited: set<ObjId>)
    ensures var wa := WalkEntries(heap, a, visited);
            var wb := WalkEntries(heap, b, wa.visited);
            WalkEntries(heap, a + b, visited) == Walked(wa.size + wb.size, wb.visited)
    decreases |a|
  {
    if a == [] {
      assert a + b == b;
    } else {
      var first := WalkEntry(heap, a[0], visited);
      assert (a + b)[0] == a[0];
      assert (a + b)[1..] == a[1..] + b;
      WalkEntriesConcat(heap, a[1..], b, first.visited);
    }
  }

  /**
   * The estimate of a whole graph: a fresh visited set per top-level call.
   * It is the sum of the own sizes of the objects the walk meets, and no
   * object is met twice.
   */
  function Estimate(heap: Heap, root: ObjId): (e: nat)
    ensures e == OwnTotal(heap, Visits(heap, root, {}))
    ensures Fresh(Visits(heap, root, {}), {})
  {
    WalkCountsEachObjectOnce(heap, root, {});
    Walk(heap, root, {}).size
  }

  // ---------------------------------------------------------------------
  // Each identity is counted at most once.

  /**
   * What an object adds by itself, not counting its children: the bytes of
   * a String or of a `to_s`, 8 for a scalar, nothing for a container.
   */
  function OwnSize(heap: Heap, id: ObjId): nat
  {
    if id !in heap then 0
    else match heap[id]
      case Str(bytes) => |bytes|
      case Arr(_) => 0
      case Hsh(_) => 0
      case Other(text) => |text|
      case _ => 8
  }

  /** The own sizes of a sequence of identities, added up. */
  function OwnTotal(heap: Heap, order: seq<ObjId>): nat
  {
    if order == [] then 0 else OwnSize(heap, order[0]) + OwnTotal(heap, order[1..])
  }

  /** The identities that occur in `order`. */
  function Elems(order: seq<ObjId>): set<ObjId>
  {
    if order == [] then {} else {order[0]} + Elems(order[1..])
  }

  /** No identity twice, and none of them visited before. */
  ghost predicate Fresh(order: seq<ObjId>, visited: set<ObjId>)
  {
    order == [] || (order[0] !in visited && Fresh(order[1..], visited + {order[0]}))
  }

  lemma {:induction false} OwnTotalAppend(heap: Heap, a: seq<ObjId>, b: seq<ObjId>)
    ensures OwnTotal(heap, a + b) == OwnTotal(heap, a) + OwnTotal(heap, b)
  {
    if a != [] {
      assert (a + b)[1..] == a[1..] + b;
      OwnTotalAppend(heap, a[1..], b);
    } else {
      assert a + b == b;
    }
  }

  lemma {:induction false} FreshAppend(a: seq<ObjId>, b: seq<ObjId>, visited: set<ObjId>)
    requires Fresh(a, visited) && Fresh(b, visited + Elems(a))
    ensures Fresh(a + b, visited)
    ensures Elems(a + b) == Elems(a) + Elems(b)
  {
    if a == [] {
      assert a + b == b;
      assert visited + Elems(a) == visited;
    } else {
      assert (a + b)[1..] == a[1..] + b;
      assert visited + Elems(a) == (visited + {a[0]}) + Elems(a[1..]);
      FreshAppend(a[1..], b, visited + {a[0]});
    }
  }

  /**
   * The identities one call sizes for the first time, in the order it
   * meets them (depth first, each recorded before its children).
   */
  ghost function Visits(heap: Heap, id: ObjId, visited: set<ObjId>): (order: seq<ObjId>)
    decreases Unvisited(heap, visited), 0, 0
  {
    if id in visited then []
    else
      var seen := visited + {id};
      if id !in heap then [id]
      else
        UnvisitedShrinks(heap, visited, seen, id);
        match heap[id]
        case Arr(items) => [id] + VisitsItems(heap, items, seen)
        case Hsh(entries) => [id] + VisitsEntries(heap, entries, seen)
        case _ => [id]
  }

  ghost function VisitsItems(heap: Heap, items: seq<ObjId>, visited: set<ObjId>): (order: seq<ObjId>)
    decreases Unvisited(heap, visited), 1, |items|
  {
    if items == [] then []
    else
      var mid := Walk(heap, items[0], visited).visited;
      UnvisitedShrinks(heap, visited, mid, items[0]);
      Visits(heap, items[0], visited) + VisitsItems(heap, items[1..], mid)
  }

  ghost function VisitsEntries(heap: Heap, entries: seq<Entry>, visited: set<ObjId>): (order: seq<ObjId>)
    decreases Unvisited(heap, visited), 2, |entries|
  {
    if entries == [] then []
    else
      var mid := WalkEntry(heap, entries[0], visited).visited;
      UnvisitedShrinks(heap, visited, mid, entries[0].key);
      VisitsEntry(heap, entries[0], visited) + VisitsEntries(heap, entries[1..], mid)
  }

  ghost function VisitsEntry(heap: Heap, entry: Entry, visited: set<ObjId>): (order: seq<ObjId>)
    decreases Unvisited(heap, visited), 1, 0
  {
    var afterKey := Walk(heap, entry.key, visited).visited;
    UnvisitedShrinks(heap, visited, afterKey, entry.key);
    Visits(heap, entry.key, visited) + Visits(heap, entry.value, afterKey)
  }

  /**
   * A walk's outcome is accounted for by `order`: the new visited set is
   * exactly the old one plus `order`, no identity in `order` repeats or was
   * visited before, and the estimate is the own sizes of `order` added up.
   */
  ghost predicate Accounts(heap: Heap, w: Walked, order: seq<ObjId>, visited: set<ObjId>)
  {
    w.visited == visited + Elems(order) && w.size == OwnTotal(heap, order) && Fresh(order, visited)
  }

  /** Two accounted walks in a row account for their sum, in order. */
  lemma AccountsAppend(heap: Heap, wa: Walked, a: seq<ObjId>, wb: Walked, b: seq<ObjId>, visited: set<ObjId>,
                       w: Walked, order: seq<ObjId>)
    requires Accounts(heap, wa, a, visited) && Accounts(heap, wb, b, wa.visited)
    requires w == Walked(wa.size + wb.size, wb.visited) && order == a + b
    ensures Accounts(heap, w, order, visited)
  {
    FreshAppend(a, b, visited);
    OwnTotalAppend(heap, a, b);
  }

  /**
   * Every distinct object is counted once and only once: the estimate of
   * one call is the sum of the own sizes of the objects it meets for the
   * first time, each of them exactly once.
   */
  lemma {:induction false} WalkCountsEachObjectOnce(heap: Heap, id: ObjId, visited: set<ObjId>)
    ensures Accounts(heap, Walk(heap, id, visited), Visits(heap, id, visited), visited)
    decreases Unvisited(heap, visited), 0, 0
  {
    if id !in visited {
      var seen := visited + {id};
      assert Elems([id]) == {id};
      assert Fresh([id], visited);
      if id in heap {
        UnvisitedShrinks(heap, visited, seen, id);
        var one := Walked(OwnSize(heap, id), seen);
        assert Accounts(heap, one, [id], visited);
        match heap[id]
        case Arr(items) =>
          WalkItemsCountsEachObjectOnce(heap, items, seen);
          AccountsAppend(heap, one, [id], WalkItems(heap, items, seen), VisitsItems(heap, items, seen), visited,
            Walk(heap, id, visited), Visits(heap, id, visited));
        case Hsh(entries) =>
          WalkEntriesCountsEachObjectOnce(heap, entries, seen);
          AccountsAppend(heap, one, [id], WalkEntries(heap, entries, seen), VisitsEntries(heap, entries, seen), visited,
            Walk(heap, id, visited), Visits(heap, id, visited));
        case _ =>
      }
    }
  }

  lemma {:induction false} WalkItemsCountsEachObjectOnce(heap: Heap, items: seq<ObjId>, visited: set<ObjId>)
    ensures Accounts(heap, WalkItems(heap, items, visited), VisitsItems(heap, items, visited), visited)
    decreases Unvisited(heap, visited), 1, |items|
  {
    if items != [] {
      var first := Walk(heap, items[0], visited);
      UnvisitedShrinks(heap, visited, first.visited, items[0]);
      WalkCountsEachObjectOnce(heap, items[0], visited);
      WalkItemsCountsEachObjectOnce(heap, items[1..], first.visited);
      AccountsAppend(heap, first, Visits(heap, items[0], visited),
        WalkItems(heap, items[1..], first.visited), VisitsItems(heap, items[1..], first.visited), visited,
        WalkItems(heap, items, visited), VisitsItems(heap, items, visited));
    } else {
      assert Elems([]) == {};
    }
  }

  lemma {:induction false} WalkEntriesCountsEachObjectOnce(heap: Heap, entries: seq<Entry>, visited: set<ObjId>)
    ensures Accounts(heap, WalkEntries(heap, entries, visited), VisitsEntries(heap, entries, visited), visited)
    decreases Unvisited(heap, visited), 2, |entries|
  {
    if entries != [] {
      var first := WalkEntry(heap, entries[0], visited);
      UnvisitedShrinks(heap, visited, first.visited, entries[0].key);
      WalkEntryCountsEachObjectOnce(heap, entries[0], visited);
      WalkEntriesCountsEachObjectOnce(heap, entries[1..], first.visited);
      AccountsAppend(heap, first, VisitsEntry(heap, entries[0], visited),
        WalkEntries(heap, entries[1..], first.visited), VisitsEntries(heap, entries[1..], first.visited), visited,
        WalkEntries(heap, entries, visited), VisitsEntries(heap, entries, visited));
    } else {
      assert Elems([]) == {};
    }
  }

  lemma {:induction false} WalkEntryCountsEachObjectOnce(heap: Heap, entry: Entry, visited: set<ObjId>)
    ensures Accounts(heap, WalkEntry(heap, entry, visited), VisitsEntry(heap, entry, visited), visited)
    decreases Unvisited(heap, visited), 1, 0
  {
    var key := Walk(heap, entry.key, visited);
    var value := Walk(heap, entry.value, key.visited);
    var keyOrder, valueOrder := Visits(heap, entry.key, visited), Visits(heap, entry.value, key.visited);
    assert Accounts(heap, key, keyOrder, visited) by {
      WalkCountsEachObjectOnce(heap, entry.key, visited);
    }
    assert Accounts(heap, value, valueOrder, key.visited) by {
      UnvisitedShrinks(heap, visited, key.visited, entry.key);
      WalkCountsEachObjectOnce(heap, entry.value, key.visited);
    }
    AccountsAppend(heap, key, keyOrder, value, valueOrder, visited,
      WalkEntry(heap, entry, visited), VisitsEntry(heap, entry, visited));
  }

  lemma {:induction false} ElemsAreMembers(order: seq<ObjId>)
    ensures forall x :: x in Elems(order) <==> x in order
  {
    if order != [] {
      ElemsAreMembers(order[1..]);
      assert forall x :: x in order <==> x == order[0] || x in order[1..];
    }
  }

  /** `Fresh` in index form: no identity twice, none visited before. */
  lemma {:induction false} FreshIsDistinct(order: seq<ObjId>, visited: set<ObjId>)
    requires Fresh(order, visited)
    ensures forall i, j :: 0 <= i < j < |order| ==> order[i] != order[j]
    ensures forall i :: 0 <= i < |order| ==> order[i] !in visited
  {
    if order != [] {
      var rest := order[1..];
      FreshIsDistinct(rest, visited + {order[0]});
      forall i, j | 0 <= i < j < |order| ensures order[i] != order[j] {
        assert order[j] == rest[j - 1];
        if i > 0 { assert order[i] == rest[i - 1]; }
      }
      forall i | 0 <= i < |order| ensures order[i] !in visited {
        if i > 0 { assert order[i] == rest[i - 1]; }
      }
    }
  }

  lemma {:induction false} OwnSizeWithinTotal(heap: Heap, order: seq<ObjId>, x: ObjId)
    requires x in order
    ensures OwnSize(heap, x) <= OwnTotal(heap, order)
  {
    if order[0] != x {
      OwnSizeWithinTotal(heap, order[1..], x);
    }
  }

  /**
   * Every String the walk of a graph reaches is counted in full: its byte
   * length never exceeds the graph's estimate.
   */
  lemma StringWithinEstimate(heap: Heap, root: ObjId, id: ObjId)
    requires id in Walk(heap, root, {}).visited
    requires id in heap && heap[id].Str?
    ensures |heap[id].bytes| <= Estimate(heap, root)
  {
    var order := Visits(heap, root, {});
    WalkCountsEachObjectOnce(heap, root, {});
    ElemsAreMembers(order);
    OwnSizeWithinTotal(heap, order, id);
  }

  // ---------------------------------------------------------------------
  // Every object reachable from the root is visited.

  /** `child` is an element of the Array `parent`, or a key or value of the Hash `parent`. */
  ghost predicate ChildOf(heap: Heap, parent: ObjId, child: ObjId)
  {
    parent in heap &&
    match heap[parent]
    case Arr(items) => child in items
    case Hsh(entries) => exists i :: 0 <= i < |entries| && (entries[i].key == child || entries[i].value == child)
    case _ => false
  }

  /** Every identity recorded after `before` has all its children in `after`. */
  ghost predicate Closed(heap: Heap, before: set<ObjId>, after: set<ObjId>)
  {
    forall x, c :: x in after && x !in before && ChildOf(heap, x, c) ==> c in after
  }

  /** Two closed walks in a row are closed together. */
  lemma ClosedTrans(heap: Heap, a: set<ObjId>, b: set<ObjId>, c: set<ObjId>)
    requires b <= c && Closed(heap, a, b) && Closed(heap, b, c)
    ensures Closed(heap, a, c)
  {
  }

  lemma {:induction false} WalkClosed(heap: Heap, id: ObjId, visited: set<ObjId>)
    ensures Closed(heap, visited, Walk(heap, id, visited).visited)
    decreases Unvisited(heap, visited), 0, 0
  {
    if id !in visited && id in heap {
      var seen := visited + {id};
      UnvisitedShrinks(heap, visited, seen, id);
      match heap[id]
      case Arr(items) =>
        WalkItemsClosed(heap, items, seen);
      case Hsh(entries) =>
        WalkEntriesClosed(heap, entries, seen);
      case _ =>
    }
  }

  lemma {:induction false} WalkItemsClosed(heap: Heap, items: seq<ObjId>, visited: set<ObjId>)
    ensures var after := WalkItems(heap, items, visited).visited;
            Closed(heap, visited, after) && forall x :: x in items ==> x in after
    decreases Unvisited(heap, visited), 1, |items|
  {
    if items != [] {
      var first := Walk(heap, items[0], visited);
      var after := WalkItems(heap, items, visited).visited;
      UnvisitedShrinks(heap, visited, first.visited, items[0]);
      WalkClosed(heap, items[0], visited);
      WalkItemsClosed(heap, items[1..], first.visited);
      ClosedTrans(heap, visited, first.visited, after);
      assert forall x :: x in items ==> x == items[0] || x in items[1..];
    }
  }

  lemma {:induction false} WalkEntriesClosed(heap: Heap, entries: seq<Entry>, visited: set<ObjId>)
    ensures var after := WalkEntries(heap, entries, visited).visited;
            Closed(heap, visited, after) &&
            forall i :: 0 <= i < |entries| ==> entries[i].key in after && entries[i].value in after
    decreases Unvisited(heap, visited), 2, |entries|
  {
    if entries != [] {
      var first := WalkEntry(heap, entries[0], visited);
      var after := WalkEntries(heap, entries, visited).visited;
      UnvisitedShrinks(heap, visited, first.visited, entries[0].key);
      WalkEntryClosed(heap, entries[0], visited);
      WalkEntriesClosed(heap, entries[1..], first.visited);
      ClosedTrans(heap, visited, first.visited, after);
      forall i | 0 < i < |entries|
        ensures entries[i].key in after && entries[i].value in after
      {
        assert entries[i] == entries[1..][i - 1];
      }
    }
  }

  lemma {:induction false} WalkEntryClosed(heap: Heap, entry: Entry, visited: set<ObjId>)
    ensures var after := WalkEntry(heap, entry, visited).visited;
            Closed(heap, visited, after) && entry.key in after && entry.value in after
    decreases Unvisited(heap, visited), 1, 0
  {
    var key := Walk(heap, entry.key, visited);
    UnvisitedShrinks(heap, visited, key.visited, entry.key);
    WalkClosed(heap, entry.key, visited);
    WalkClosed(heap, entry.value, key.visited);
    ClosedTrans(heap, visited, key.visited, WalkEntry(heap, entry, visited).visited);
  }

  /** `path` leads from its first identity to its last, one child at a time. */
  ghost predicate IsPath(heap: Heap, path: seq<ObjId>)
  {
    |path| > 0 && forall i :: 0 <= i < |path| - 1 ==> ChildOf(heap, path[i], path[i + 1])
  }

  /**
   * Nothing reachable is skipped: every object reachable from the root is
   * in the visited set of the root's walk, so the walk sizes all of it.
   */
  lemma ReachableIsVisited(heap: Heap, root: ObjId, path: seq<ObjId>)
    requires IsPath(heap, path) && path[0] == root
    ensures path[|path| - 1] in Walk(heap, root, {}).visited
  {
    WalkClosed(heap, root, {});
    PathStaysInside(heap, Walk(heap, root, {}).visited, path);
  }

  lemma {:induction false} PathStaysInside(heap: Heap, after: set<ObjId>, path: seq<ObjId>)
    requires IsPath(heap, path) && path[0] in after && Closed(heap, {}, after)
    ensures path[|path| - 1] in after
  {
    if |path| > 1 {
      var prefix := path[..|path| - 1];
      assert IsPath(heap, prefix) by {
        forall i | 0 <= i < |prefix| - 1
          ensures ChildOf(heap, prefix[i], prefix[i + 1])
        {
          assert prefix[i] == path[i] && prefix[i + 1] == path[i + 1];
        }
      }
      PathStaysInside(heap, after, prefix);
      assert ChildOf(heap, path[|path| - 2], path[|path| - 1]);
    }
  }

  /** Some path leads from `a` to `x`. */
  ghost predicate Reaches(heap: Heap, a: ObjId, x: ObjId)
  {
    exists path :: IsPath(heap, path) && path[0] == a && path[|path| - 1] == x
  }

  /** Every object reaches itself, by the path of length one. */
  lemma ReachesSelf(heap: Heap, a: ObjId)
    ensures Reaches(heap, a, a)
  {
    assert IsPath(heap, [a]);
  }

  /** A parent reaches whatever its child reaches. */
  lemma ExtendPath(heap: Heap, parent: ObjId, child: ObjId, x: ObjId)
    requires ChildOf(heap, parent, child) && Reaches(heap, child, x)
    ensures Reaches(heap, parent, x)
  {
    var path :| IsPath(heap, path) && path[0] == child && path[|path| - 1] == x;
    var longer := [parent] + path;
    forall i | 0 <= i < |longer| - 1
      ensures ChildOf(heap, longer[i], longer[i + 1])
    {
      if i > 0 {
        assert longer[i] == path[i - 1] && longer[i + 1] == path[i];
      }
    }
    assert IsPath(heap, longer) && longer[0] == parent && longer[|longer| - 1] == x;
  }

  lemma {:induction false} WalkReaches(heap: Heap, id: ObjId, visited: set<ObjId>)
    ensures forall x :: x in Walk(heap, id, visited).visited && x !in visited ==> Reaches(heap, id, x)
    decreases Unvisited(heap, visited), 0, 0
  {
    if id !in visited {
      var seen := visited + {id};
      ReachesSelf(heap, id);
      if id in heap {
        UnvisitedShrinks(heap, visited, seen, id);
        match heap[id]
        case Arr(items) =>
          WalkItemsReach(heap, items, seen);
          forall x | x in Walk(heap, id, visited).visited && x !in seen
            ensures Reaches(heap, id, x)
          {
            var i :| 0 <= i < |items| && Reaches(heap, items[i], x);
            ExtendPath(heap, id, items[i], x);
          }
        case Hsh(entries) =>
          WalkEntriesReach(heap, entries, seen);
          forall x | x in Walk(heap, id, visited).visited && x !in seen
            ensures Reaches(heap, id, x)
          {
            var i :| 0 <= i < |entries| && (Reaches(heap, entries[i].key, x) || Reaches(heap, entries[i].value, x));
            if Reaches(heap, entries[i].key, x) {
              ExtendPath(heap, id, entries[i].key, x);
            } else {
              ExtendPath(heap, id, entries[i].value, x);
            }
          }
        case _ =>
      }
    }
  }

  lemma {:induction false} WalkItemsReach(heap: Heap, items: seq<ObjId>, visited: set<ObjId>)
    ensures forall x :: x in WalkItems(heap, items, visited).visited && x !in visited ==>
              exists i :: 0 <= i < |items| && Reaches(heap, items[i], x)
    decreases Unvisited(heap, visited), 1, |items|
  {
    if items != [] {
      var first := Walk(heap, items[0], visited);
      UnvisitedShrinks(heap, visited, first.visited, items[0]);
      WalkReaches(heap, items[0], visited);
      WalkItemsReach(heap, items[1..], first.visited);
      forall x | x in WalkItems(heap, items, visited).visited && x !in visited
        ensures exists i :: 0 <= i < |items| && Reaches(heap, items[i], x)
      {
        if x !in first.visited {
          var j :| 0 <= j < |items[1..]| && Reaches(heap, items[1..][j], x);
          assert items[1..][j] == items[j + 1];
        } else {
          assert Reaches(heap, items[0], x);
        }
      }
    }
  }

  lemma {:induction false} WalkEntriesReach(heap: Heap, entries: seq<Entry>, visited: set<ObjId>)
    ensures forall x :: x in WalkEntries(heap, entries, visited).visited && x !in visited ==>
              exists i :: 0 <= i < |entries| && (Reaches(heap, entries[i].key, x) || Reaches(heap, entries[i].value, x))
    decreases Unvisited(heap, visited), 2, |entries|
  {
    if entries != [] {
      var first := WalkEntry(heap, entries[0], visited);
      UnvisitedShrinks(heap, visited, first.visited, entries[0].key);
      WalkEntryReaches(heap, entries[0], visited);
      WalkEntriesReach(heap, entries[1..], first.visited);
      forall x | x in WalkEntries(heap, entries, visited).visited && x !in visited
        ensures exists i :: 0 <= i < |entries| && (Reaches(heap, entries[i].key, x) || Reaches(heap, entries[i].value, x))
      {
        if x !in first.visited {
          var j :| 0 <= j < |entries[1..]| && (Reaches(heap, entries[1..][j].key, x) || Reaches(heap, entries[1..][j].value, x));
          assert entries[1..][j] == entries[j + 1];
        } else {
          assert Reaches(heap, entries[0].key, x) || Reaches(heap, entries[0].value, x);
        }
      }
    }
  }

  lemma {:induction false} WalkEntryReaches(heap: Heap, entry: Entry, visited: set<ObjId>)
    ensures forall x :: x in WalkEntry(heap, entry, visited).visited && x !in visited ==>
              Reaches(heap, entry.key, x) || Reaches(heap, entry.value, x)
    decreases Unvisited(heap, visited), 1, 0
  {
    var key := Walk(heap, entry.key, visited);
    UnvisitedShrinks(heap, visited, key.visited, entry.key);
    WalkReaches(heap, entry.key, visited);
    WalkReaches(heap, entry.value, key.visited);
  }

  /** Nothing outside the data is counted: every object the root walk visits is reachable from the root. */
  lemma VisitedIsReachable(heap: Heap, root: ObjId, x: ObjId)
    requires x in Walk(heap, root, {}).visited
    ensures Reaches(heap, root, x)
  {
    WalkReaches(heap, root, {});
  }

  /**
   * The estimate is exactly the data's own objects: the objects the walk
   * counts are those reachable from the root, each counted once.
   */
  lemma EstimateIsOfReachableObjects(heap: Heap, root: ObjId)
    ensures Estimate(heap, root) == OwnTotal(heap, Visits(heap, root, {}))
    ensures forall i, j :: 0 <= i < j < |Visits(heap, root, {})| ==> Visits(heap, root, {})[i] != Visits(heap, root, {})[j]
    ensures forall x :: x in Visits(heap, root, {}) <==> Reaches(heap, root, x)
  {
    var order := Visits(heap, root, {});
    WalkCountsEachObjectOnce(heap, root, {});
    FreshIsDistinct(order, {});
    ElemsAreMembers(order);
    WalkReaches(heap, root, {});
    forall x | Reaches(heap, root, x)
      ensures x in order
    {
      var path :| IsPath(heap, path) && path[0] == root && path[|path| - 1] == x;
      ReachableIsVisited(heap, root, path);
    }
  }

  /** Every String reachable from the root is counted in full. */
  lemma ReachableStringWithinEstimate(heap: Heap, root: ObjId, path: seq<ObjId>)
    requires IsPath(heap, path) && path[0] == root
    requires path[|path| - 1] in heap && heap[path[|path| - 1]].Str?
    ensures |heap[path[|path| - 1]].bytes| <= Estimate(heap, root)
  {
    ReachableIsVisited(heap, root, path);
    StringWithinEstimate(heap, root, path[|path| - 1]);
  }

  // ---------------------------------------------------------------------
  // Growing a String never lowers the estimate.

  /** `heap` with `extra` bytes appended to the String at `s`. */
  function AppendBytes(heap: Heap, s: ObjId, extra: seq<byte>): (grown: Heap)
    requires s in heap && heap[s].Str?
    ensures grown.Keys == heap.Keys
    ensures grown[s] == Str(heap[s].bytes + extra)
    ensures forall x :: x in heap && x != s ==> grown[x] == heap[x]
  {
    heap[s := Str(heap[s].bytes + extra)]
  }

  /**
   * `after` visits what `before` visits and is larger by `n` exactly when
   * the walk met the identity `s` for the first time.
   */
  ghost predicate GrownBy(after: Walked, before: Walked, visited: set<ObjId>, s: ObjId, n: nat)
  {
    after.visited == before.visited &&
    after.size == before.size + (if s in before.visited && s !in visited then n else 0)
  }

  lemma GrownByAppend(a1: Walked, b1: Walked, a2: Walked, b2: Walked, visited: set<ObjId>, s: ObjId, n: nat)
    requires visited <= b1.visited <= b2.visited
    requires GrownBy(a1, b1, visited, s, n) && GrownBy(a2, b2, b1.visited, s, n)
    ensures GrownBy(Walked(a1.size + a2.size, a2.visited), Walked(b1.size + b2.size, b2.visited), visited, s, n)
  {
  }

  /**
   * Appending bytes to a String inside the graph changes no visit and adds
   * exactly their number to the estimate when the walk reaches that String.
   */
  lemma {:induction false} WalkGrowsWithString(heap: Heap, s: ObjId, extra: seq<byte>, id: ObjId, visited: set<ObjId>)
    requires s in heap && heap[s].Str?
    ensures GrownBy(Walk(AppendBytes(heap, s, extra), id, visited), Walk(heap, id, visited), visited, s, |extra|)
    decreases Unvisited(heap, visited), 0, 0
  {
    var grown := AppendBytes(heap, s, extra);
    if id !in visited && id in heap {
      var seen := visited + {id};
      UnvisitedShrinks(heap, visited, seen, id);
      if id != s {
        match heap[id]
        case Arr(items) => ItemsGrowWithString(heap, s, extra, items, seen);
        case Hsh(entries) => EntriesGrowWithString(heap, s, extra, entries, seen);
        case _ =>
      }
    }
  }

  lemma {:induction false} ItemsGrowWithString(heap: Heap, s: ObjId, extra: seq<byte>, items: seq<ObjId>, visited: set<ObjId>)
    requires s in heap && heap[s].Str?
    ensures GrownBy(WalkItems(AppendBytes(heap, s, extra), items, visited), WalkItems(heap, items, visited), visited, s, |extra|)
    decreases Unvisited(heap, visited), 1, |items|
  {
    if items != [] {
      var grown := AppendBytes(heap, s, extra);
      var first := Walk(heap, items[0], visited);
      UnvisitedShrinks(heap, visited, first.visited, items[0]);
      WalkGrowsWithString(heap, s, extra, items[0], visited);
      ItemsGrowWithString(heap, s, extra, items[1..], first.visited);
      GrownByAppend(Walk(grown, items[0], visited), first,
        WalkItems(grown, items[1..], first.visited), WalkItems(heap, items[1..], first.visited), visited, s, |extra|);
    }
  }

  lemma {:induction false} EntriesGrowWithString(heap: Heap, s: ObjId, extra: seq<byte>, entries: seq<Entry>, visited: set<ObjId>)
    requires s in heap && heap[s].Str?
    ensures GrownBy(WalkEntries(AppendBytes(heap, s, extra), entries, visited), WalkEntries(heap, entries, visited), visited, s, |extra|)
    decreases Unvisited(heap, visited), 2, |entries|
  {
    if entries != [] {
      var grown := AppendBytes(heap, s, extra);
      var first := WalkEntry(heap, entries[0], visited);
      UnvisitedShrinks(heap, visited, first.visited, entries[0].key);
      EntryGrowsWithString(heap, s, extra, entries[0], visited);
      EntriesGrowWithString(heap, s, extra, entries[1..], first.visited);
      GrownByAppend(WalkEntry(grown, entries[0], visited), first,
        WalkEntries(grown, entries[1..], first.visited), WalkEntries(heap, entries[1..], first.visited), visited, s, |extra|);
    }
  }

  lemma {:induction false} EntryGrowsWithString(heap: Heap, s: ObjId, extra: seq<byte>, entry: Entry, visited: set<ObjId>)
    requires s in heap && heap[s].Str?
    ensures GrownBy(WalkEntry(AppendBytes(heap, s, extra), entry, visited), WalkEntry(heap, entry, visited), visited, s, |extra|)
    decreases Unvisited(heap, visited), 1, 0
  {
    var grown := AppendBytes(heap, s, extra);
    var key := Walk(heap, entry.key, visited);
    UnvisitedShrinks(heap, visited, key.visited, entry.key);
    WalkGrowsWithString(heap, s, extra, entry.key, visited);
    WalkGrowsWithString(heap, s, extra, entry.value, key.visited);
    GrownByAppend(Walk(grown, entry.key, visited), key,
      Walk(grown, entry.value, key.visited), Walk(heap, entry.value, key.visited), visited, s, |extra|);
  }

  /**
   * Monotonicity: appending bytes to any String never lowers the estimate;
   * it raises it by exactly their number when the walk reaches that String.
   */
  lemma EstimateNeverShrinks(heap: Heap, root: ObjId, s: ObjId, extra: seq<byte>)
    requires s in heap && heap[s].Str?
    ensures Estimate(heap, root) <= Estimate(AppendBytes(heap, s, extra), root)
    ensures Estimate(AppendBytes(heap, s, extra), root)
      == Estimate(heap, root) + (if s in Walk(heap, root, {}).visited then |extra| else 0)
  {
    WalkGrowsWithString(heap, s, extra, root, {});
  }

  /** Appending bytes to a String reachable from the root raises the estimate by exactly their number. */
  lemma ReachableStringGrowsEstimate(heap: Heap, root: ObjId, path: seq<ObjId>, extra: seq<byte>)
    requires IsPath(heap, path) && path[0] == root
    requires path[|path| - 1] in heap && heap[path[|path| - 1]].Str?
    ensures Estimate(AppendBytes(heap, path[|path| - 1], extra), root) == Estimate(heap, root) + |extra|
  {
    ReachableIsVisited(heap, root, path);
    EstimateNeverShrinks(heap, root, path[|path| - 1], extra);
  }
}

=== FILE: int_overflow.dfy ===
/**
 * The integer arithmetic of test_int_overflow.rb: the `& 0xFFFFFFFF`
 * truncation of `demonstrate_truncation_math`, the overflow amount, the
 * `size > INT_MAX` diagnosis of `test_string_size`, and the sizes swept by
 * `test_around_int_max_boundary`.
 */
module IntOverflow {
  import opened Common
  import opened NegativeIntCast

  /** INT_MAX of a 32-bit signed C `int`. */
  const INT_MAX: nat := 2147483647

  /** Ruby's `Integer#&` on non-negative operands, one bit at a time. */
  function BitAnd(a: nat, b: nat): (r: nat)
    ensures r <= a && r <= b
  {
    if a == 0 || b == 0 then 0
    else 2 * BitAnd(a / 2, b / 2) + (if a % 2 == 1 && b % 2 == 1 then 1 else 0)
  }

  /** Masking with `k` one bits keeps `a` modulo 2^k. */
  lemma {:induction false} LowBitsMask(a: nat, k: nat)
    ensures BitAnd(a, Pow2(k) - 1) == a % Pow2(k)
  {
    if k > 0 && a > 0 {
      var half := Pow2(k - 1);
      OddMaskHalves(half);
      LowBitsMask(a / 2, k - 1);
      assert BitAnd(a, 2 * half - 1) == 2 * BitAnd(a / 2, half - 1) + a % 2;
      NextBit(a, half, BitAnd(a / 2, half - 1));
    } else if k == 0 {
      assert Pow2(k) == 1;
    } else {
      DivModUnique(a, Pow2(k), 0, 0);
    }
  }

  /** `2h - 1` is odd and halves to `h - 1`. */
  lemma OddMaskHalves(half: nat)
    requires half >= 1
    ensures (2 * half - 1) / 2 == half - 1 && (2 * half - 1) % 2 == 1
  {
    DivModUnique(2 * half - 1, 2, half - 1, 1);
  }

  /** The lowest bit, then the rest: `a mod 2h` from `(a / 2) mod h`. */
  lemma NextBit(a: nat, half: nat, low: nat)
    requires half >= 1 && low == (a / 2) % half
    ensures 2 * low + a % 2 == a % (2 * half)
  {
    ModSplit(a, 2, half);
  }

  lemma {:induction false} Pow2Add(a: nat, b: nat)
    ensures Pow2(a + b) == Pow2(a) * Pow2(b)
  {
    if a > 0 {
      Pow2Add(a - 1, b);
      assert Pow2(a + b) == 2 * Pow2(a - 1 + b);
    }
  }

  lemma Pow2Of32()
    ensures Pow2(32) == INT32_MODULUS
  {
    assert Pow2(8) == 256;
    Pow2Add(8, 8);
    Pow2Add(16, 16);
  }

  /** Masking with 32 one bits keeps the value modulo 2^32. */
  lemma Mask32(size: nat)
    ensures BitAnd(size, 0xFFFF_FFFF) == size % INT32_MODULUS
  {
    Pow2Of32();
    LowBitsMask(size, 32);
  }

  /** `large_size & 0xFFFFFFFF`. */
  function Truncate32(size: nat): (truncated: nat)
    ensures truncated < INT32_MODULUS
    ensures (size - truncated) % INT32_MODULUS == 0
    ensures size < INT32_MODULUS ==> truncated == size
  {
    Mask32(size);
    RemainderFacts(size, INT32_MODULUS);
    BitAnd(size, 0xFFFF_FFFF)
  }

  lemma RemainderFacts(v: nat, m: nat)
    requires m > 0
    ensures (v - v % m) % m == 0
    ensures v < m ==> v % m == v
  {
    DivModUnique(v - v % m, m, v / m, 0);
    if v < m {
      DivModUnique(v, m, 0, v);
    }
  }

  /**
   * A signed 32-bit value and an unsigned 32-bit value that agree with the
   * same integer modulo 2^32 are the two readings of the same bits.
   */
  lemma SignedReading(v: int, r: int, t: int)
    requires -INT32_HALF <= r < INT32_HALF && (v - r) % INT32_MODULUS == 0
    requires 0 <= t < INT32_MODULUS && (v - t) % INT32_MODULUS == 0
    ensures r == if t > INT_MAX then t - INT32_MODULUS else t
  {
    var s := if t > INT_MAX then t - INT32_MODULUS else t;
    assert (t - s) % INT32_MODULUS == 0 by {
      DivModUnique(t - s, INT32_MODULUS, if t > INT_MAX then 1 else 0, 0);
    }
    CongruentTrans(v, t, s, INT32_MODULUS);
    assert (r - v) % INT32_MODULUS == 0 by {
      DivModUnique(r - v, INT32_MODULUS, -((v - r) / INT32_MODULUS), 0);
    }
    CongruentTrans(r, v, s, INT32_MODULUS);
    CongruentInWindow(r, s, -INT32_HALF, INT32_MODULUS);
  }

  /** The two ways the scripts truncate a size agree: masking, then reading the bits as signed, is the `pack('l')` cast. */
  lemma MaskMatchesPackCast(size: nat)
    ensures CastToInt(size)
      == if Truncate32(size) > INT_MAX then Truncate32(size) - INT32_MODULUS else Truncate32(size)
  {
    SignedReading(size, CastToInt(size), Truncate32(size));
  }

  /** `demonstrate_truncation_math`: 3737406350 already fits in 32 bits, so nothing is cut off. */
  lemma DemonstratedTruncation()
    ensures Truncate32(3737406350) == 3737406350
    ensures 3737406350 - Truncate32(3737406350) == 0
    ensures OverflowAmount(3737406350) == 1589922703
  {
  }

  /**
   * What the truncation demonstration evidently means to show: the `(int)`
   * cast of 3737406350 is negative, -557560946.
   */
  lemma DemonstratedSignedTruncation()
    ensures CastToInt(3737406350) == 3737406350 - INT32_MODULUS == -557560946
  {
    CastWrapsLargeSizes(3737406350);
  }

  /** `large_size - INT_MAX`: positive exactly when the size is past INT_MAX. */
  function OverflowAmount(largeSize: int): (amount: int)
    ensures amount > 0 <==> largeSize > INT_MAX
    ensures largeSize == INT_MAX + amount
  {
    largeSize - INT_MAX
  }

  /** What `test_string_size` prints for one size. */
  datatype SizeReport =
    | Succeeded                                 // both dumps returned
    | Failed(confirmsTruncation: bool)          // a StandardError was rescued; the diagnosis line is printed or not

  /**
   * The outcome of `test_string_size(size)`. Whether an `Oj.dump` call
   * raises a `StandardError` is up to the foreign encoder, so it is a
   * parameter.
   */
  function TestStringSize(size: nat, ojRaised: bool): (report: SizeReport)
    ensures report.Failed? <==> ojRaised
    ensures report.Failed? ==> (report.confirmsTruncation <==> size > INT_MAX)
  {
    if ojRaised then Failed(size > INT_MAX) else Succeeded
  }

  /**
   * The diagnosis line blames the cast exactly for the 32-bit sizes that
   * the `pack('l')` cast turns negative.
   */
  lemma DiagnosisMatchesNegativeCast(size: nat)
    requires size < INT32_MODULUS
    ensures TestStringSize(size, true) == Failed(CastToInt(size) < 0)
  {
    if size <= INT_MAX {
      CastKeepsSmallSizes(size);
    } else {
      CastWrapsLargeSizes(size);
    }
  }

  /** The sizes `test_around_int_max_boundary` tries, in order. */
  const TEST_SIZES: seq<nat> := [INT_MAX - 1000, INT_MAX - 1, INT_MAX, INT_MAX + 1, INT_MAX + 1000, INT_MAX * 2]

  /** The sweep rises strictly and straddles INT_MAX: three sizes at or below it, three above. */
  lemma TestSizesStraddleIntMax()
    ensures forall i, j :: 0 <= i < j < |TEST_SIZES| ==> TEST_SIZES[i] < TEST_SIZES[j]
    ensures forall i :: 0 <= i < |TEST_SIZES| ==> (TEST_SIZES[i] <= INT_MAX <==> i < 3)
  {
  }
}

=== FILE: negative_int_cast.dfy ===
/**
 * The fixed-width conversions of test_negative_int_cast.rb, written with
 * Ruby's `Array#pack` / `String#unpack` as byte encoders: `'l'` packs the
 * low 32 bits of an Integer in two's complement and unpacks them as a
 * signed 32-bit value; `'q'` packs 64 bits and `'Q'` unpacks them as an
 * unsigned 64-bit value. Packing never fails: an Integer too wide for the
 * field keeps only its low bytes. The model fixes little-endian order; the
 * round trips below do not depend on it.
 */
module NegativeIntCast {
  import opened Common

  /** 256 to the power `n`: the number of values `n` bytes can hold. */
  function Pow256(n: nat): (p: nat)
    ensures p >= 1
  {
    if n == 0 then 1 else 256 * Pow256(n - 1)
  }

  /** The low `n` bytes of `v`, least significant first. */
  function EncodeLE(v: nat, n: nat): (s: seq<byte>)
    ensures |s| == n
  {
    if n == 0 then [] else [(v % 256) as byte] + EncodeLE(v / 256, n - 1)
  }

  /** The unsigned value of little-endian bytes. */
  function DecodeLE(s: seq<byte>): (v: nat)
    ensures v < Pow256(|s|)
  {
    if s == [] then 0 else s[0] as nat + 256 * DecodeLE(s[1..])
  }

  /** Decoding the bytes of `v` gives `v` modulo the field's range. */
  lemma {:induction false} DecodeEncode(v: nat, n: nat)
    ensures DecodeLE(EncodeLE(v, n)) == v % Pow256(n)
  {
    if n > 0 {
      var s := EncodeLE(v, n);
      assert s[1..] == EncodeLE(v / 256, n - 1);
      DecodeEncode(v / 256, n - 1);
      ModSplit(v, 256, Pow256(n - 1));
    }
  }

  /** `[v].pack(...)` for a `width`-byte integer directive. */
  function Pack(v: int, width: nat): (s: seq<byte>)
    ensures |s| == width
  {
    var m := Pow256(width);
    var u: nat := v % m;
    EncodeLE(u, width)
  }

  /** `s.unpack(...)[0]` for an unsigned `width`-byte directive; `nil` when `s` is too short. */
  function UnpackUnsigned(s: seq<byte>, width: nat): (r: Option<nat>)
    ensures r.Some? <==> |s| >= width
    ensures r.Some? ==> r.value < Pow256(width)
  {
    if |s| < width then None else Some(DecodeLE(s[..width]))
  }

  /** A field of at least one byte holds an even number of values. */
  lemma Pow256Halves(width: nat)
    requires width > 0
    ensures Pow256(width) == 2 * (Pow256(width) / 2)
  {
    DivModUnique(Pow256(width), 2, 128 * Pow256(width - 1), 0);
  }

  /** `s.unpack(...)[0]` for a signed `width`-byte directive: two's complement. */
  function UnpackSigned(s: seq<byte>, width: nat): (r: Option<int>)
    requires width > 0
    ensures r.Some? <==> |s| >= width
    ensures r.Some? ==> 0 <= r.value + Pow256(width) / 2 < Pow256(width)
  {
    Pow256Halves(width);
    match UnpackUnsigned(s, width)
    case None => None
    case Some(u) => Some(if u >= Pow256(width) / 2 then u - Pow256(width) else u)
  }

  /** Unpacking what was packed gives back `v` modulo the field's range. */
  lemma PackUnpackUnsigned(v: int, width: nat)
    ensures UnpackUnsigned(Pack(v, width), width) == Some(v % Pow256(width))
  {
    var m := Pow256(width);
    var u := v % m;
    var s := Pack(v, width);
    assert s == EncodeLE(u, width);
    assert s[..width] == s;
    DecodeEncode(u, width);
    DivModUnique(u, m, 0, u);
  }

  /**
   * Reading the low bits of `v` back as a two's complement value gives a
   * value that differs from `v` by a multiple of the field's range.
   */
  lemma TwosComplementCongruent(v: int, m: nat)
    requires m > 0
    ensures var u := v % m; (v - (if u >= m / 2 then u - m else u)) % m == 0
  {
    var u := v % m;
    if u >= m / 2 {
      DivModUnique(v - (u - m), m, v / m + 1, 0);
    } else {
      DivModUnique(v - u, m, v / m, 0);
    }
  }

  /** 2^32: the number of values a 32-bit field holds. */
  const INT32_MODULUS: nat := 0x1_0000_0000
  /** 2^31: the first size a signed 32-bit `int` cannot hold. */
  const INT32_HALF: int := 0x8000_0000
  const UINT64_MODULUS: nat := 0x1_0000_0000_0000_0000

  /**
   * `[v].pack('l').unpack('l')[0]`: the C cast `(int)v`. The result is the
   * one 32-bit signed value that agrees with `v` modulo 2^32.
   */
  function CastToInt(v: int): (r: int)
    ensures -INT32_HALF <= r < INT32_HALF
    ensures (v - r) % INT32_MODULUS == 0
  {
    assert Pow256(4) == INT32_MODULUS;
    PackUnpackUnsigned(v, 4);
    TwosComplementCongruent(v, INT32_MODULUS);
    UnpackSigned(Pack(v, 4), 4).value
  }

  /**
   * `[n].pack('q').unpack('Q')[0]`: assigning `n` to a `size_t`. The result
   * is the one unsigned 64-bit value that agrees with `n` modulo 2^64.
   */
  function ToSizeT(n: int): (r: nat)
    ensures r < UINT64_MODULUS
    ensures (r - n) % UINT64_MODULUS == 0
  {
    assert Pow256(8) == UINT64_MODULUS;
    PackUnpackUnsigned(n, 8);
    DivModUnique(n - n % UINT64_MODULUS, UINT64_MODULUS, n / UINT64_MODULUS, 0);
    UnpackUnsigned(Pack(n, 8), 8).value
  }

  /** What `show_boundary_behavior` reports for one size. */
  datatype Boundary =
    | Safe(intResult: int)                 // the cast stayed non-negative
    | Huge(intResult: int, sizeT: nat)     // the cast went negative and re-widened

  function ShowBoundary(value: int): (b: Boundary)
    ensures b.intResult == CastToInt(value)
    ensures b.Safe? <==> b.intResult >= 0
    ensures b.Huge? ==> b.sizeT == ToSizeT(b.intResult)
  {
    var intResult := CastToInt(value);
    if intResult >= 0 then Safe(intResult) else Huge(intResult, ToSizeT(intResult))
  }

  /** Sizes up to INT_MAX survive the cast unchanged and are reported safe. */
  lemma {:induction false} CastKeepsSmallSizes(value: int)
    requires 0 <= value <= 0x7FFF_FFFF
    ensures CastToInt(value) == value
    ensures ShowBoundary(value) == Safe(value)
  {
    var r := CastToInt(value);
    DivModUnique(value - r, INT32_MODULUS, (value - r) / INT32_MODULUS, 0);
  }

  /** Sizes in (INT_MAX, 2^32) come back from the cast as `value - 2^32`, negative. */
  lemma {:induction false} CastWrapsLargeSizes(value: int)
    requires INT32_HALF <= value < INT32_MODULUS
    ensures CastToInt(value) == value - INT32_MODULUS < 0
    ensures ShowBoundary(value).Huge?
  {
    var r := CastToInt(value);
    DivModUnique(value - r, INT32_MODULUS, (value - r) / INT32_MODULUS, 0);
  }

  /** The whole report for a size in (INT_MAX, 2^32): cast to `value - 2^32`, re-widened to `2^64 + value - 2^32`. */
  lemma UnsafeReport(value: int)
    requires INT32_HALF <= value < INT32_MODULUS
    ensures ShowBoundary(value) == Huge(value - INT32_MODULUS, UINT64_MODULUS + value - INT32_MODULUS)
  {
    CastWrapsLargeSizes(value);
    WidenNegative(value - INT32_MODULUS);
  }

  /** A negative 64-bit signed value re-read as `size_t` is `2^64 + n`. */
  lemma {:induction false} WidenNegative(n: int)
    requires -0x8000_0000_0000_0000 <= n < 0
    ensures ToSizeT(n) == UINT64_MODULUS + n
  {
    var r := ToSizeT(n);
    DivModUnique(r - n, UINT64_MODULUS, (r - n) / UINT64_MODULUS, 0);
  }

  /**
   * For every size a Ruby String can have (below 2^63) that the cast
   * turns negative, the size C then reads is strictly larger than the
   * true size.
   */
  lemma UnsafeSizeGrows(value: int)
    requires 0 <= value < 0x8000_0000_0000_0000
    requires ShowBoundary(value).Huge?
    ensures ShowBoundary(value).sizeT > value
  {
    WidenNegative(CastToInt(value));
  }

  /** `demonstrate_negative_int_conversion`: 2^31 casts to -2^31 and widens to 18446744071562067968. */
  lemma DemonstratedConversion()
    ensures CastToInt(INT32_HALF) == -2147483648
    ensures ToSizeT(CastToInt(INT32_HALF)) == 18446744071562067968
  {
    CastWrapsLargeSizes(INT32_HALF);
    WidenNegative(-2147483648);
  }

  /**
   * The ratio the script prints as the C program's expected output for
   * 2^31: 8589934592.
   */
  const PRINTED_RATIO: nat := 8589934592

  /** The printed ratio is one too large: the re-widened size is not 8589934592 times 2^31. */
  lemma PrintedRatioIsOffByOne()
    ensures ToSizeT(CastToInt(INT32_HALF)) != PRINTED_RATIO * INT32_HALF
    ensures ToSizeT(CastToInt(INT32_HALF)) == (PRINTED_RATIO - 1) * INT32_HALF
  {
    DemonstratedConversion();
  }

  /**
   * For every size in (INT_MAX, 2^32) the re-widened size is `2^64 - 2^32`
   * more than the size; at 2^31 that is exactly 2^33 - 1 times the size.
   */
  lemma WidenedRatio(value: int)
    requires INT32_HALF <= value < INT32_MODULUS
    ensures ShowBoundary(value).sizeT == value + (UINT64_MODULUS - INT32_MODULUS)
    ensures value == INT32_HALF ==> ShowBoundary(value).sizeT == 8589934591 * value
  {
    UnsafeReport(value);
  }

  /** The four sizes `show_boundary_behavior` walks through. */
  const BOUNDARY_TEST_VALUES: seq<int> := [2147483646, 2147483647, 2147483648, 2147483649]

  lemma BoundaryTestValuesReport()
    ensures ShowBoundary(BOUNDARY_TEST_VALUES[0]) == Safe(2147483646)
    ensures ShowBoundary(BOUNDARY_TEST_VALUES[1]) == Safe(2147483647)
    ensures ShowBoundary(BOUNDARY_TEST_VALUES[2]) == Huge(-2147483648, 18446744071562067968)
    ensures ShowBoundary(BOUNDARY_TEST_VALUES[3]) == Huge(-2147483647, 18446744071562067969)
  {
    CastKeepsSmallSizes(2147483646);
    CastKeepsSmallSizes(2147483647);
    UnsafeReport(2147483648);
    UnsafeReport(2147483649);
  }

}

=== FILE: safe_json_serializer.dfy ===
/**
 * `SafeJsonSerializer` of workaround.rb: estimate the size of the data,
 * then hand it to `Oj.dump` unless the estimate is past INT_MAX, in which
 * case hand it to `JSON.generate`.
 *
 * The two encoders are foreign code. They are the function-valued fields
 * of `Backends`, which also keeps a log of every call made to them, so that
 * which encoder ran, and with what, can be stated.
 */
module SafeJsonSerializer {
  import opened Common
  import opened ValueGraph
  import opened DataSize
  import NegativeIntCast

  /** `SIZE_THRESHOLD`: INT_MAX, the largest size Oj's `int` length holds. */
  const SIZE_THRESHOLD: nat := 2147483647

  /** The caller's Oj options hash, passed through untouched. */
  type Options = map<string, string>

  /** What an encoder call ends with: the JSON text, or the exception it raised. */
  datatype Outcome = Returned(json: seq<byte>) | Raised(exception: string)

  /**
   * One invocation of an encoder, on the data as it was when it was
   * passed: the heap at the time of the call and the root identity.
   */
  datatype Call =
    | OjDump(heap: Heap, data: ObjId, options: Options)
    | JsonGenerate(heap: Heap, data: ObjId)

  /**
   * `calculate_data_size(obj, visited)`. The `visited` Set that the source
   * mutates in place and shares with every nested call is threaded through
   * as an in/out value: each call receives it and returns it as it left it.
   */
  method CalculateDataSize(heap: Heap, id: ObjId, visited: set<ObjId>) returns (size: nat, visitedOut: set<ObjId>)
    ensures Walked(size, visitedOut) == Walk(heap, id, visited)
    decreases Unvisited(heap, visited)
  {
    if id in visited {
      return 0, visited;
    }
    visitedOut := visited + {id};
    if id !in heap {
      return 0, visitedOut;
    }
    ghost var seen := visitedOut;
    match heap[id] {
      case Str(bytes) =>
        size := |bytes|;
      case Arr(items) =>
        size := 0;
        var i := 0;
        while i < |items|
          invariant i <= |items|
          invariant seen <= visitedOut
          invariant size + WalkItems(heap, items[i..], visitedOut).size == WalkItems(heap, items, seen).size
          invariant WalkItems(heap, items[i..], visitedOut).visited == WalkItems(heap, items, seen).visited
        {
          assert items[i..][1..] == items[i + 1..];
          UnvisitedShrinks(heap, visited, visitedOut, id);
          var itemSize;
          itemSize, visitedOut := CalculateDataSize(heap, items[i], visitedOut);
          size := size + itemSize;
          i := i + 1;
        }
      case Hsh(entries) =>
        size := 0;
        var i := 0;
        while i < |entries|
          invariant i <= |entries|
          invariant seen <= visitedOut
          invariant size + WalkEntries(heap, entries[i..], visitedOut).size == WalkEntries(heap, entries, seen).size
          invariant WalkEntries(heap, entries[i..], visitedOut).visited == WalkEntries(heap, entries, seen).visited
        {
          assert entries[i..][1..] == entries[i + 1..];
          UnvisitedShrinks(heap, visited, visitedOut, id);
          var keySize, valueSize;
          keySize, visitedOut := CalculateDataSize(heap, entries[i].key, visitedOut);
          UnvisitedShrinks(heap, visited, visitedOut, id);
          valueSize, visitedOut := CalculateDataSize(heap, entries[i].value, visitedOut);
          size := size + (keySize + valueSize);
          i := i + 1;
        }
      case Other(text) =>
        size := |text|;
      case _ =>
        size := 8;
    }
  }

  /** The encoders, and the log of every call made to them. */
  class Backends {
    /** What `Oj.dump(data, options)` produces. */
    const ojDump: (Heap, ObjId, Options) -> Outcome
    /** What `JSON.generate(data)` produces. */
    const jsonGenerate: (Heap, ObjId) -> Outcome
    /** Every encoder call made so far, oldest first. */
    ghost var calls: seq<Call>

    constructor (ojDump: (Heap, ObjId, Options) -> Outcome, jsonGenerate: (Heap, ObjId) -> Outcome)
      ensures this.ojDump == ojDump && this.jsonGenerate == jsonGenerate
      ensures calls == []
    {
      this.ojDump := ojDump;
      this.jsonGenerate := jsonGenerate;
      calls := [];
    }

    method Oj(heap: Heap, data: ObjId, options: Options) returns (out: Outcome)
      modifies this
      ensures calls == old(calls) + [OjDump(heap, data, options)]
      ensures out == ojDump(heap, data, options)
    {
      calls := calls + [OjDump(heap, data, options)];
      out := ojDump(heap, data, options);
    }

    method Json(heap: Heap, data: ObjId) returns (out: Outcome)
      modifies this
      ensures calls == old(calls) + [JsonGenerate(heap, data)]
      ensures out == jsonGenerate(heap, data)
    {
      calls := calls + [JsonGenerate(heap, data)];
      out := jsonGenerate(heap, data);
    }

    /** What a call returns when made on these encoders. */
    function Perform(call: Call): Outcome
    {
      match call
      case OjDump(heap, data, options) => ojDump(heap, data, options)
      case JsonGenerate(heap, data) => jsonGenerate(heap, data)
    }

    /**
     * Oj has only ever been handed data whose estimate, taken on the data as
     * it was at that call, is within the threshold.
     */
    ghost predicate OjStayedWithinThreshold()
      reads this
    {
      forall i :: 0 <= i < |calls| && calls[i].OjDump? ==> Estimate(calls[i].heap, calls[i].data) <= SIZE_THRESHOLD
    }
  }

  /**
   * The one encoder call `dump(data, options)` makes: `JSON.generate(data)`
   * when the estimate is past the threshold, `Oj.dump(data, options)`
   * otherwise.
   */
  function DumpCall(heap: Heap, data: ObjId, options: Options): (call: Call)
    ensures call.heap == heap && call.data == data
    ensures call.OjDump? <==> Estimate(heap, data) <= SIZE_THRESHOLD
    ensures call.OjDump? ==> call.options == options
  {
    if Estimate(heap, data) > SIZE_THRESHOLD then JsonGenerate(heap, data) else OjDump(heap, data, options)
  }

  /**
   * `SafeJsonSerializer.dump(data, options)`: estimate with a fresh visited
   * set, then make exactly the one call `DumpCall` names and return its
   * outcome unchanged. Since that call depends only on the data and the
   * options, dumping unchanged data twice picks the same encoder twice.
   */
  method Dump(heap: Heap, data: ObjId, options: Options, backends: Backends) returns (out: Outcome)
    modifies backends
    ensures backends.calls == old(backends.calls) + [DumpCall(heap, data, options)]
    ensures out == backends.Perform(DumpCall(heap, data, options))
    ensures old(backends.OjStayedWithinThreshold()) ==> backends.OjStayedWithinThreshold()
  {
    var totalSize, _ := CalculateDataSize(heap, data, {});
    if totalSize > SIZE_THRESHOLD {
      out := backends.Json(heap, data);
    } else {
      out := backends.Oj(heap, data, options);
    }
  }

  // ---------------------------------------------------------------------
  // What the threshold buys.

  /**
   * Whenever `dump` picks Oj, every String in the data has a length that
   * survives Oj's `(int)` cast unchanged.
   */
  lemma OjNeverSeesTruncatedLength(heap: Heap, data: ObjId, options: Options, id: ObjId)
    requires DumpCall(heap, data, options).OjDump?
    requires id in Walk(heap, data, {}).visited && id in heap && heap[id].Str?
    ensures NegativeIntCast.CastToInt(|heap[id].bytes|) == |heap[id].bytes|
  {
    StringWithinEstimate(heap, data, id);
    NegativeIntCast.CastKeepsSmallSizes(|heap[id].bytes|);
  }

  /** Data that is one String of `bytes`, with identity 0. */
  function SingleString(bytes: seq<byte>): (heap: Heap)
    ensures 0 in heap && heap[0] == Str(bytes)
  {
    map[0 := Str(bytes)]
  }

  /**
   * A lone String of exactly INT_MAX bytes goes to Oj, one of INT_MAX + 1
   * bytes to `JSON.generate`: the threshold is inclusive.
   */
  lemma SingleStringThreshold(bytes: seq<byte>, options: Options)
    ensures Estimate(SingleString(bytes), 0) == |bytes|
    ensures DumpCall(SingleString(bytes), 0, options)
      == if |bytes| <= 2147483647 then OjDump(SingleString(bytes), 0, options) else JsonGenerate(SingleString(bytes), 0)
  {
    assert Walk(SingleString(bytes), 0, {}) == Walked(|bytes|, {0});
  }

  // ---------------------------------------------------------------------
  // The data `test_safe_serializer` dumps.

  /** The UTF-8 bytes of an ASCII string: each character's code. */
  function Ascii(s: string): (b: seq<byte>)
    ensures |b| == |s|
  {
    seq(|s|, i requires 0 <= i < |s| => (s[i] as int % 128) as byte)
  }

  /**
   * `{html: html, json: {id: "test-id", type: "test-type", disabled: false,
   * blocks: [], contentForIndexSection: false, accessedThemeSettings:
   * ["cart_type", "show_vendor"]}}`. Symbols are sized by their `to_s`; the
   * two `false` values are the one `false` object, identity 10.
   */
  function SerializerTestData(html: seq<byte>): (h: Heap)
    ensures 0 in h && h[0] == Hsh([Entry(1, 2), Entry(3, 4)])
    ensures 2 in h && h[2] == Str(html)
  {
    map[
      0 := Hsh([Entry(1, 2), Entry(3, 4)]),
      1 := Other(Ascii("html")),
      2 := Str(html),
      3 := Other(Ascii("json")),
      4 := Hsh([Entry(5, 6), Entry(7, 8), Entry(9, 10), Entry(11, 12), Entry(13, 10), Entry(14, 15)]),
      5 := Other(Ascii("id")),
      6 := Str(Ascii("test-id")),
      7 := Other(Ascii("type")),
      8 := Str(Ascii("test-type")),
      9 := Other(Ascii("disabled")),
      10 := FalseObj,
      11 := Other(Ascii("blocks")),
      12 := Arr([]),
      13 := Other(Ascii("contentForIndexSection")),
      14 := Other(Ascii("accessedThemeSettings")),
      15 := Arr([16, 17]),
      16 := Str(Ascii("cart_type")),
      17 := Str(Ascii("show_vendor"))
    ]
  }

  // The identities of `SerializerTestData` are numbered in the order the
  // walk first meets them, so every visited set along the way is `Upto(n)`.

  /** The identities below `n`. */
  function Upto(n: nat): set<ObjId>
  {
    if n == 0 then {} else Upto(n - 1) + {n - 1}
  }

  lemma {:induction false} UptoHolds(i: ObjId, n: nat)
    requires i < n
    ensures i in Upto(n)
  {
    if i < n - 1 {
      UptoHolds(i, n - 1);
    }
  }

  lemma {:induction false} UptoMisses(i: ObjId, n: nat)
    requires n <= i
    ensures i !in Upto(n)
  {
    if n > 0 {
      UptoMisses(i, n - 1);
    }
  }

  /** Identity `id` holds an object without children that adds `size` on first visit. */
  ghost predicate Leaf(heap: Heap, id: ObjId, size: nat)
  {
    id in heap &&
    match heap[id]
    case Str(bytes) => |bytes| == size
    case Other(text) => |text| == size
    case Arr(_) => false
    case Hsh(_) => false
    case _ => size == 8
  }

  /**
   * What the walk needs to know of `SerializerTestData`: the two hashes,
   * the two arrays, and what each leaf adds, for html of `htmlSize` bytes.
   */
  ghost predicate TestDataShape(h: Heap, htmlSize: nat)
  {
    && 0 in h && h[0] == Hsh([Entry(1, 2), Entry(3, 4)])
    && Leaf(h, 1, 4) && Leaf(h, 2, htmlSize) && Leaf(h, 3, 4)
    && 4 in h && h[4] == Hsh([Entry(5, 6), Entry(7, 8), Entry(9, 10), Entry(11, 12), Entry(13, 10), Entry(14, 15)])
    && Leaf(h, 5, 2) && Leaf(h, 6, 7) && Leaf(h, 7, 4) && Leaf(h, 8, 9) && Leaf(h, 9, 8) && Leaf(h, 10, 8)
    && Leaf(h, 11, 6) && 12 in h && h[12] == Arr([])
    && Leaf(h, 13, 22) && Leaf(h, 14, 21) && 15 in h && h[15] == Arr([16, 17])
    && Leaf(h, 16, 9) && Leaf(h, 17, 11)
  }

  lemma SerializerTestDataShape(html: seq<byte>)
    ensures TestDataShape(SerializerTestData(html), |html|)
  {
  }

  lemma LeafStep(heap: Heap, n: nat, size: nat)
    requires Leaf(heap, n, size)
    ensures Walk(heap, n, Upto(n)) == Walked(size, Upto(n + 1))
  {
    UptoMisses(n, n);
  }

  /** An entry whose key and value are the next two fresh leaves. */
  lemma LeafEntry(heap: Heap, n: nat, keySize: nat, valueSize: nat)
    requires Leaf(heap, n, keySize) && Leaf(heap, n + 1, valueSize)
    ensures WalkEntry(heap, Entry(n, n + 1), Upto(n)) == Walked(keySize + valueSize, Upto(n + 2))
  {
    LeafStep(heap, n, keySize);
    LeafStep(heap, n + 1, valueSize);
  }

  /** An entry whose key is the next fresh leaf and whose value `v` was visited before. */
  lemma LeafKeySeenValue(heap: Heap, n: nat, v: ObjId, keySize: nat)
    requires Leaf(heap, n, keySize) && v < n
    ensures WalkEntry(heap, Entry(n, v), Upto(n)) == Walked(keySize, Upto(n + 1))
  {
    LeafStep(heap, n, keySize);
    UptoHolds(v, n + 1);
  }

  /** One more Hash entry in front of others, each leaving the visited set at `Upto` of something. */
  lemma EntriesCons(heap: Heap, a: Entry, rest: seq<Entry>, n: nat, m: nat, k: nat, sa: nat, sr: nat)
    requires WalkEntry(heap, a, Upto(n)) == Walked(sa, Upto(m))
    requires WalkEntries(heap, rest, Upto(m)) == Walked(sr, Upto(k))
    ensures WalkEntries(heap, [a] + rest, Upto(n)) == Walked(sa + sr, Upto(k))
  {
    assert ([a] + rest)[1..] == rest;
  }

  /** The `id:`, `type:` and `disabled:` entries of the inner hash add 38. */
  lemma InnerHashHead(h: Heap, htmlSize: nat)
    requires TestDataShape(h, htmlSize)
    ensures WalkEntries(h, [Entry(5, 6), Entry(7, 8), Entry(9, 10)], Upto(5)) == Walked(38, Upto(11))
  {
    LeafEntry(h, 5, 2, 7);
    LeafEntry(h, 7, 4, 9);
    LeafEntry(h, 9, 8, 8);
    assert WalkEntries(h, [], Upto(11)) == Walked(0, Upto(11));
    EntriesCons(h, Entry(9, 10), [], 9, 11, 11, 16, 0);
    EntriesCons(h, Entry(7, 8), [Entry(9, 10)], 7, 9, 11, 13, 16);
    EntriesCons(h, Entry(5, 6), [Entry(7, 8), Entry(9, 10)], 5, 7, 11, 9, 29);
  }

  /** `blocks: []`: the key, then an empty Array that adds nothing. */
  lemma BlocksEntry(h: Heap, htmlSize: nat)
    requires TestDataShape(h, htmlSize)
    ensures WalkEntry(h, Entry(11, 12), Upto(11)) == Walked(6, Upto(13))
  {
    LeafStep(h, 11, 6);
    UptoMisses(12, 12);
    assert Walk(h, 12, Upto(12)) == Walked(0, Upto(13));
  }

  /** `accessedThemeSettings: ["cart_type", "show_vendor"]`: the key, the Array, its two Strings. */
  lemma ThemeSettingsEntry(h: Heap, htmlSize: nat)
    requires TestDataShape(h, htmlSize)
    ensures WalkEntry(h, Entry(14, 15), Upto(14)) == Walked(41, Upto(18))
  {
    LeafStep(h, 14, 21);
    LeafStep(h, 16, 9);
    LeafStep(h, 17, 11);
    UptoMisses(15, 15);
    assert [16, 17][1..] == [17] && [17][1..] == [];
    assert WalkItems(h, [17], Upto(17)) == Walked(11, Upto(18));
    assert Walk(h, 15, Upto(15)) == Walked(20, Upto(18));
  }

  /** The `blocks:`, `contentForIndexSection:` and `accessedThemeSettings:` entries add 69. */
  lemma InnerHashTail(h: Heap, htmlSize: nat)
    requires TestDataShape(h, htmlSize)
    ensures WalkEntries(h, [Entry(11, 12), Entry(13, 10), Entry(14, 15)], Upto(11)) == Walked(69, Upto(18))
  {
    BlocksEntry(h, htmlSize);
    // `contentForIndexSection: false`: the `false` was met under `disabled:`.
    LeafKeySeenValue(h, 13, 10, 22);
    ThemeSettingsEntry(h, htmlSize);
    assert WalkEntries(h, [], Upto(18)) == Walked(0, Upto(18));
    EntriesCons(h, Entry(14, 15), [], 14, 18, 18, 41, 0);
    EntriesCons(h, Entry(13, 10), [Entry(14, 15)], 13, 14, 18, 22, 41);
    EntriesCons(h, Entry(11, 12), [Entry(13, 10), Entry(14, 15)], 11, 13, 18, 6, 63);
  }

  /**
   * The inner `json:` hash adds 107: 9 for `id:`, 13 for `type:`, 16 for
   * `disabled: false`, 6 for `blocks: []`, 22 for the second `false` (only
   * its key), 41 for `accessedThemeSettings:`.
   */
  lemma InnerHashEstimate(h: Heap, htmlSize: nat)
    requires TestDataShape(h, htmlSize)
    ensures Walk(h, 4, Upto(4)) == Walked(107, Upto(18))
  {
    var head := [Entry(5, 6), Entry(7, 8), Entry(9, 10)];
    var tail := [Entry(11, 12), Entry(13, 10), Entry(14, 15)];
    InnerHashHead(h, htmlSize);
    InnerHashTail(h, htmlSize);
    WalkEntriesConcat(h, head, tail, Upto(5));
    UptoMisses(4, 4);
    assert h[4].entries == head + tail;
  }

  /**
   * The estimate is the html length plus 115: the keys' `to_s` bytes, the
   * short strings, and the shared `false` counted once at 8.
   */
  lemma SerializerTestDataEstimate(html: seq<byte>)
    ensures Estimate(SerializerTestData(html), 0) == |html| + 115
  {
    var h := SerializerTestData(html);
    SerializerTestDataShape(html);
    TestDataEstimate(h, |html|);
  }

  lemma TestDataEstimate(h: Heap, htmlSize: nat)
    requires TestDataShape(h, htmlSize)
    ensures Walk(h, 0, {}) == Walked(htmlSize + 115, Upto(18))
  {
    LeafEntry(h, 1, 4, htmlSize);
    LeafStep(h, 3, 4);
    InnerHashEstimate(h, htmlSize);
    assert WalkEntry(h, Entry(3, 4), Upto(3)) == Walked(111, Upto(18));
    assert WalkEntries(h, [], Upto(18)) == Walked(0, Upto(18));
    EntriesCons(h, Entry(3, 4), [], 3, 18, 18, 111, 0);
    EntriesCons(h, Entry(1, 2), [Entry(3, 4)], 1, 3, 18, 4 + htmlSize, 111);
    assert {} + {0} == Upto(1);
  }

  /**
   * `test_safe_serializer`: 2000 MB of html still goes to Oj, 4000 MB goes
   * to `JSON.generate`.
   */
  lemma SerializerTestDispatch(html: seq<byte>, options: Options)
    ensures |html| == 2000 * 1024 * 1024 ==> DumpCall(SerializerTestData(html), 0, options).OjDump?
    ensures |html| == 4000 * 1024 * 1024 ==> DumpCall(SerializerTestData(html), 0, options).JsonGenerate?
  {
    SerializerTestDataEstimate(html);
  }
}

=== FILE: value_graph.dfy ===
/**
 * The Ruby value graph that `SafeJsonSerializer` walks.
 *
 * Ruby identity is `object_id`, not structural equality, so the graph is a
 * heap from explicit identities to objects; a container holds the identities
 * of its children. Two parents may hold the same identity (sharing) and an
 * object may reach itself (a cycle). `false`, `nil`, `true`, small integers
 * and symbols have one identity wherever they occur, which the heap expresses
 * by every occurrence naming the same `ObjId`.
 */
module ValueGraph {
  import opened Common

  /** A Ruby `object_id`. */
  type ObjId = nat

  /** One key/value pair of a Hash, in insertion order. */
  datatype Entry = Entry(key: ObjId, value: ObjId)

  /** The kinds of object `calculate_data_size` tells apart. */
  datatype Node =
    | Str(bytes: seq<byte>)       // String; its `bytesize` is |bytes|
    | Arr(items: seq<ObjId>)      // Array
    | Hsh(entries: seq<Entry>)    // Hash
    | Numeric                     // Integer, Float, Rational, ...
    | TrueObj
    | FalseObj
    | NilObj
    | Other(text: seq<byte>)      // any other object (Symbol, ...), with the bytes of its `to_s`

  type Heap = map<ObjId, Node>
}
